=== FILE: README.md ===
# circuitscan build status and query service, modelled in Dafny

This project models two small pure cores of circuitscan, a service that
verifies circom circuits and reports on their build jobs.

**Build-status shaping** (`BuildStatus`, `BuildStatusLemmas`). The build-status
view fetches a job's event log. It then turns the log into three things:
- `shell`: the compiler log transcript, converted from ANSI to HTML;
- `duration`: the time of the last event;
- `memory`: the memory/disk chart series.

The view keeps a three-field state `{loading, data, error}`. The model
makes this a pure function `Load` from the decoded event list to
`Result<LoadResult, LoadError>`, plus the state transition `Complete`. Each
error names the JavaScript property read that throws.

**Query-service handler** (`Server`, `ServerLemmas`, `Hex`). The handler:
- routes a request by `payload.action`;
- checks the bounds of `getNewest`;
- checks the preconditions of `getPkgAssoc` in their order;
- writes stored address bytes as `0x` hex and decodes request addresses
  back to bytes, with Node's hex codec;
- maps every thrown error to a 400 reply.

The generic sequence operations the shaping uses are in `Seqs`. They model
JavaScript's `filter`, `map` with a throwing callback, and `join`, and
`Positions` characterises `filter` independently. `Wrappers` holds
`Option` and `Result`.

Behaviour of the code that a reader might not expect, and that the model keeps:
- A disk table that is present but has no `/tmp` row fails the whole load,
  rather than charting 0. `find` returns `undefined`, and reading `.Used`
  then throws.
- A sample does not need exactly one memory reading. A non-zero
  `memoryUsage` wins even when `memory.rss` is also present. A
  `memoryUsage` of 0 counts as absent and falls through to `memory.rss`.
  The memory reading throws only when that fallback finds no `memory`.
- An empty log fails the load, rather than giving an empty transcript.
  Reading `time` of `data[-1]` throws.
- The ANSI-to-HTML converter is taken as a total function, so a failure
  inside it is not a separate outcome.

`server/index.js` reads `event.payload.action` before any route runs, so
`getPkgAssoc`'s `missing_payload` check can never fail when the handler
calls it. An absent payload gets the TypeError's message instead.
`MissingPayloadUnreachable` states this.

## Model

| member | source | states |
|---|---|---|
| Seqs.Filter | src/components/BuildStatus.js:24 | every kept event is an event of the log that passes the tag test, and every such event is kept |
| Seqs.FilterIsGather | src/components/BuildStatus.js:24 | the filtered list is exactly the log's events at the increasing indices whose events pass the test, in log order |
| Seqs.Positions | src/components/BuildStatus.js:24 | the indices of the events that pass the test: an index is listed if and only if its event passes, in strictly increasing order |
| Seqs.FilterSkipsRejected | src/components/BuildStatus.js:24 | an event the test rejects changes nothing in the filtered list, wherever it stands |
| Seqs.FilterConcat | src/components/BuildStatus.js:24 | filtering a concatenation gives the first part's kept events followed by the second's |
| Seqs.MapAll | src/components/BuildStatus.js:25-34 | `map` with a callback that may throw: it succeeds if and only if every callback succeeds, then result k is the callback's value on element k; otherwise the error is the first failing element's |
| Seqs.MapAllFilterFirstFailure | src/components/BuildStatus.js:28-34 | when `map` over the filtered events fails, its error is that of the first kept event, in log order, whose callback fails; the callback succeeds on every kept event before it |
| Seqs.Join | src/components/BuildStatus.js:26 | `join` of no strings is the empty string, and a non-empty join starts with its first string |
| Seqs.JoinLength | src/components/BuildStatus.js:26 | joining no lines gives ""; otherwise the text holds every line's characters plus one separator per neighbouring pair |
| Seqs.JoinConcat | src/components/BuildStatus.js:26 | joining two non-empty groups of lines is joining each group with one separator between them |
| Seqs.JoinEnds | src/components/BuildStatus.js:26 | the joined text starts with the first line and ends with the last |
| BuildStatus.IsLogLine | src/components/BuildStatus.js:24 | an event is a transcript line exactly when its `msg` is `Circomkit Log` |
| BuildStatus.IsMemorySample | src/components/BuildStatus.js:29 | an event is a memory sample exactly when its `msg` is `Circom memory usage` or `Memory Usage Update` |
| BuildStatus.LineOf | src/components/BuildStatus.js:25 | a log line throws if and only if it has no payload; otherwise it contributes its `msg`, or "" when `msg` is absent |
| BuildStatus.FindMount | src/components/BuildStatus.js:32 | `find` of a mount: nothing if and only if no row has that mount, otherwise the first row that has it |
| BuildStatus.HasNativeReading | src/components/BuildStatus.js:31 | the `memoryUsage` test is JavaScript truthiness: the reading decides only when present and non-zero, so 0 falls through to `memory.rss` |
| BuildStatus.MemoryOf | src/components/BuildStatus.js:31 | a non-zero `memoryUsage` gives 1024 times it, whether or not `memory` is also present; otherwise `memory.rss` as is; with neither, it throws |
| BuildStatus.DiskOf | src/components/BuildStatus.js:32 | no table gives 0; a table throws if and only if no row is mounted on `/tmp`; otherwise 1024 times the first `/tmp` row's usage |
| BuildStatus.SampleOf | src/components/BuildStatus.js:30-34 | a sample is produced if and only if the event is readable (payload, memory reading, `/tmp` row when a table is present); it keeps the event's time; the error follows field order |
| BuildStatus.ShellText | src/components/BuildStatus.js:23-26 | the transcript text fails, with the `data.msg` error, exactly when some log line has no payload |
| BuildStatus.Series | src/components/BuildStatus.js:28-34 | the series succeeds exactly when every memory-sample event is readable, and then has one point per such event |
| BuildStatus.Load | src/components/BuildStatus.js:22-35 | the load fails with the empty-log error if and only if the log is empty; on success the duration is the last event's time, the shell is the converted transcript and the memory is the series |
| BuildStatus.Pending | src/components/BuildStatus.js:12-14 | the initial state: `loading` true, `data` and `error` unset |
| BuildStatus.Complete | src/components/BuildStatus.js:36-41 | after the try/catch/finally `loading` is false; a result is stored whole in `data`, a thrown error in `error`, and the other field is left as it was |
| BuildStatusLemmas.ShellTextSpec | src/components/BuildStatus.js:23-26 | the transcript is the text of every event tagged `Circomkit Log`, in log order, joined by a blank line |
| BuildStatusLemmas.SeriesSpec | src/components/BuildStatus.js:28-34 | the series has one point per event tagged `Circom memory usage` or `Memory Usage Update`, in log order, each shaped from its own event and carrying its time unchanged |
| BuildStatusLemmas.LoadSpec | src/components/BuildStatus.js:22-34 | a successful load is the converted transcript of the log lines, the last event's time, and one point per memory-sample event in log order |
| BuildStatusLemmas.LoadSucceedsIff | src/components/BuildStatus.js:22-41 | a load succeeds if and only if the log is non-empty, every log line has a payload and every memory sample is readable |
| BuildStatusLemmas.LineErrorFirst | src/components/BuildStatus.js:23-27 | the transcript is evaluated first, so a log line without payload decides the error even when the log has other faults |
| BuildStatusLemmas.SeriesErrorIsFirstFailure | src/components/BuildStatus.js:28-34 | when the series fails, the error is the one of the first memory-sample event in log order that cannot be shaped; every earlier sample is readable |
| BuildStatusLemmas.SampleErrorIsFirstFailure | src/components/BuildStatus.js:28-34 | when the log is non-empty, its log lines are readable and the load fails, the error is the one of the first unreadable memory-sample event |
| BuildStatusLemmas.UnrelatedEventIgnored | src/components/BuildStatus.js:24-29 | an event with any other tag leaves transcript and series unchanged wherever it stands; placed after a non-empty log, it changes only the duration of a successful load and leaves a failing load's error as it was |
| BuildStatusLemmas.TwoLinesOneSample | src/components/BuildStatus.js:22-34 | two log lines around a runtime sample give the transcript "hello\n\ndone", duration 0.3 and one point of 2048 bytes with disk 0 |
| BuildStatusLemmas.NativeReadingWins | src/components/BuildStatus.js:31 | a non-zero compiler reading is scaled by 1024 and a present `memory.rss` is ignored |
| BuildStatusLemmas.ZeroReadingFallsBackToRss | src/components/BuildStatus.js:31 | a compiler reading of 0 counts as absent: `memory.rss` is taken, and without `memory` the sample throws |
| BuildStatusLemmas.TableWithoutTmpFailsLoad | src/components/BuildStatus.js:32 | in a log whose only relevant event is a runtime sample with a disk table that has no `/tmp` row, even an empty table, the load fails with exactly the missing-`/tmp` error instead of giving 0 |
| BuildStatusLemmas.TableWithoutTmpFailsAnyLoad | src/components/BuildStatus.js:32 | a memory sample whose disk table has no `/tmp` row fails the load wherever it stands in the log, whatever the other events are |
| BuildStatusLemmas.FirstTmpRowCounts | src/components/BuildStatus.js:32 | for a table of a foreign row followed by two `/tmp` rows, the disk value is 1024 times the first `/tmp` row's usage and the second is ignored (BuildStatus.DiskOf states this for every table) |
| BuildStatusLemmas.LoadSettles | src/components/BuildStatus.js:12-41 | after one load the state is not loading and exactly one of data and error is set; data holds the complete result exactly when shaping succeeded; an empty log ends in error |
| Hex.DigitValue | server/index.js:76 | the hex decoder reads `0`-`9`, `a`-`f` and `A`-`F` as 0-15 and nothing else as a digit |
| Hex.Encode | server/index.js:55 | two lower-case hex digits per byte, high nibble first, so the text is twice as long as the bytes |
| Hex.Decode | server/index.js:76 | byte k is the value of the hex pair at 2k, in either case; decoding stops at the first position that is not a pair of hex digits |
| Hex.DecodeEncode | server/index.js:55-76 | decoding the hex text of some bytes gives back those bytes |
| Hex.EncodeDecode | server/index.js:55-76 | encoding the bytes decoded from an even run of hex digits gives the same digits in lower case |
| Hex.FormatAddress | server/index.js:55 | a formatted address is `0x` followed by lower-case hex digits, and has length 2 + 2 times the number of bytes |
| Hex.DropPrefix | server/index.js:76 | `slice(2)` drops the first two characters and keeps the rest; on a text shorter than two it gives the empty string |
| Hex.DecodeAddress | server/index.js:76 | byte k of a request address is the value of the hex pair after the first two characters at offset 2k; decoding stops at the first such position that does not hold a pair |
| Hex.DecodeAddressStops | server/index.js:76 | decoding a request address stops at the first offset after the first two characters that does not hold two hex digits, so a partly valid address yields the bytes before that point |
| Hex.AddressRoundTrip | server/index.js:55-76 | dropping the first two characters of a formatted address and hex-decoding the rest gives back the stored bytes |
| Hex.AddressCanonical | server/index.js:55-76 | formatting a decoded `0x` address that has an even number of hex digits gives the address with its digits in lower case |
| Server.Below | server/index.js:33-36 | JavaScript's `<` against a finite bound: false for NaN and +Infinity, true for -Infinity, the real comparison otherwise |
| Server.Above | server/index.js:37 | JavaScript's `>` against a finite bound: false for NaN and -Infinity, true for +Infinity, the real comparison otherwise |
| Server.ParseAction | server/index.js:10-18 | an action selects a route if and only if it is exactly that route's name: `newest`, `pkg-assoc` or `verifyCircom` |
| Server.OffsetAccepted | server/index.js:33 | the offsets the first guard lets through: not NaN and not below 0, so +Infinity passes and -Infinity does not |
| Server.LimitAccepted | server/index.js:35-37 | the limits the second guard lets through: not NaN, not below 0 and not above 1000, so a finite number in [0, 1000] |
| Server.NewestWindow | server/index.js:33-51 | an offset that is NaN or negative gives `invalid_offset`, whatever the limit; otherwise a limit that is not in [0, 1000] gives `invalid_limit`; otherwise the query window is the floors of the limit (at most 1000) and the offset |
| Server.FloorOffset | server/index.js:51 | the offset is rounded down to a row count, and positive infinity stays infinite |
| Server.FormatRows | server/index.js:54-57 | one reply row per stored row; every column except the address is unchanged; each address is `0x` followed by lower-case hex digits, of length 2 + 2 times its bytes, and decodes back to them |
| Server.GetNewest | server/index.js:32-58 | a rejected window is the reply's error; otherwise the store's error, or the store's rows formatted |
| Server.FirstFailure | server/index.js:61-69 | no error if and only if every check holds; otherwise the error of the first failing check |
| Server.AddressAccepted | server/index.js:63 | the address check passes exactly when `isAddress` accepts the payload's address; an absent address is rejected |
| Server.Truthy | server/index.js:65 | a chain id is truthy unless it is absent, the number 0 or the empty string |
| Server.PkgAssocChecks | server/index.js:61-69 | four checks in source order with the errors `missing_payload`, `invalid_address`, `missing_chainId`, `invalid_chainId`; each check holds exactly when the payload is present and its own condition holds (address accepted, chain id truthy, chain known), so all hold exactly when all four conditions do |
| Server.GetPkgAssoc | server/index.js:60-83 | the first failing precondition, in source order, decides the error; when all hold, the association query is keyed by the chain id and the decoded address, and its rows come back with status 200 |
| Server.Dispatch | server/index.js:9-19 | `newest` is answered by `getNewest`, `pkg-assoc` by `getPkgAssoc` and `verifyCircom` by the verifier; a successful route never produces an error reply; an absent payload throws the TypeError; an unknown action throws `invalid_command` |
| Server.Handle | server/index.js:4-29 | the handler replies with an error if and only if dispatch threw, and then the reply is status 400 with `errorType` `error` and the thrown message; otherwise the reply is the route's |
| ServerLemmas.ActionsRouteToHandlers | server/index.js:10-28 | through the handler, `newest`, `pkg-assoc` and `verifyCircom` get their own handler's reply, and that handler's error as a 400 reply |
| ServerLemmas.UnknownActionRejected | server/index.js:17-28 | an action that names no route is answered with status 400 and message `invalid_command` |
| ServerLemmas.OffsetCheckedFirst | server/index.js:33-34 | an offset that is NaN or negative is reported as `invalid_offset`, whatever the limit |
| ServerLemmas.LimitOutOfRangeRejected | server/index.js:35-38 | with an accepted offset, a limit that is NaN or outside [0, 1000] is reported as `invalid_limit` |
| ServerLemmas.NoQueryOnRejectedWindow | server/index.js:33-52 | a rejected newest-rows request gets the same reply whatever the store would answer, so no query runs |
| ServerLemmas.NewestRowsServed | server/index.js:40-57 | with valid bounds, the handler returns every stored row in order, the columns unchanged and each address exactly the formatted stored bytes: `0x` plus lower-case hex that decodes back to them |
| ServerLemmas.PkgAssocErrorOrder | server/index.js:61-69 | the errors come in a fixed order: `missing_payload`, then `invalid_address`, then `missing_chainId`, then `invalid_chainId` |
| ServerLemmas.NoQueryOnFailedCheck | server/index.js:61-77 | a request that fails a precondition gets the same reply whatever the association store holds |
| ServerLemmas.MissingPayloadUnreachable | server/index.js:10-62 | an absent payload is answered with the TypeError of the `action` read; a request routed to `getPkgAssoc` never fails its `missing_payload` check |
| ServerLemmas.ReturnedAddressKeysAssoc | server/index.js:55-76 | an address the service returned, sent back to `getPkgAssoc`, queries the association table with the same bytes the row was stored under |

## Left out

- The fetch of the status blob and `result.json()` are network I/O. The model starts from the decoded event list.
- `Convert.toHtml` comes from the `ansi-to-html` library. It is the parameter `toHtml`, a total function on the joined text.
- The `toFixed(2)` on the duration, and `formatDuration`/`formatBytes`, are float formatting. The duration is kept as the last event's time.
- The React hooks, the `useEffect` lifecycle, rendering, the chart configuration and dark mode are presentation.
- `console.error` is logging only.
- Numbers in the event log are integers (`memoryUsage`, `rss`, `Used`) and reals (`time`), so a NaN `memoryUsage` cannot be expressed. `Number(Used)` is taken as already parsed, so a non-numeric `Used` is not modelled.
- Payloads of the wrong JavaScript type are not modelled: a non-array truthy `disk`, a `memory` object without `rss`, and an event without `time` all fall outside the datatypes. An event without `msg` behaves like an event whose tag matches nothing.
- `'body' in event` with `JSON.parse` is the AWS envelope, and `JSON.stringify` of the error body is serialisation. The model takes the decoded request and returns the structured body.
- `verifyCircom` and `TABLE_PKG_ASSOC` are imported from other modules (`server/index.js:1-2`), and `pool.query` with its SQL text, `isAddress` and `findChain` are used in `server/index.js` without being declared there. All of them are fields of `Backend`, and an absent address is taken as rejected by `isAddress`.
- Payload fields are the values JavaScript's comparisons see after `ToNumber` (`Num`), plus absent/integer/text for `chainId`. A payload that is a falsy primitive behaves like a payload without `action`. A `null` payload's TypeError says "null" where the model keeps one message.
- Text is a sequence of Unicode code points. JavaScript's `slice(2)` and Node's hex decoder count UTF-16 code units, so an address with characters outside the Basic Multilingual Plane, or with lone surrogates, is not modelled: `Hex.DropPrefix` and `Hex.Decode` would split it differently.

=== FILE: build_status.dfy ===
/** The build-status view's data shaping: a job's decoded event log becomes a
    load result holding the shell transcript, the total duration and the
    memory/disk series, or the error the shaping throws. Also the view's
    three-field load state (loading, data, error). */
module BuildStatus {
  import opened Wrappers
  import opened Seqs

  /** Tag of a compiler log line. */
  const LogTag: string := "Circomkit Log"
  /** Tag of a memory sample reported by the circuit compiler (reading in KiB). */
  const NativeSampleTag: string := "Circom memory usage"
  /** Tag of a memory sample reported by the runtime sampler (resident set size in bytes). */
  const RuntimeSampleTag: string := "Memory Usage Update"
  /** Mount point whose usage is charted as disk. */
  const TmpMount: string := "/tmp"
  /** Separator between two log lines in the transcript. */
  const LineSeparator: string := "\n\n"
  /** Bytes per kibibyte. */
  const KiB: int := 1024

  /** One row of a `df`-style disk table; `used` is in KiB. */
  datatype DiskEntry = DiskEntry(mounted: string, used: int)

  /** The payload `data` of an event. Every field is optional; which ones
      are read depends on the event's tag.
      - `msg`: the text of a log line;
      - `memoryUsage`: the compiler's memory reading in KiB;
      - `rss`: `memory.rss` of a runtime sample, in bytes (None when `memory` is absent);
      - `disk`: the disk table, when one is attached. */
  datatype Payload = Payload(
    msg: Option<string>,
    memoryUsage: Option<int>,
    rss: Option<int>,
    disk: Option<seq<DiskEntry>>)

  /** One event of the log: its tag, its time offset in seconds and its payload
      (None when the event has no `data`). */
  datatype Event = Event(msg: string, time: real, data: Option<Payload>)

  /** One point of the chart series, memory and disk in bytes. */
  datatype Sample = Sample(memory: int, disk: int, time: real)

  /** What a successful load hands to the view. */
  datatype LoadResult = LoadResult(shell: string, duration: real, memory: seq<Sample>)

  /** The property read that throws during shaping.
      - `NoLineData`: a log line without `data` (reading `data.msg`);
      - `EmptyLog`: no events at all (reading `time` of the last event);
      - `NoSampleData`: a memory sample without `data` (reading `data.memoryUsage`);
      - `NoRss`: a memory sample with neither a non-zero `memoryUsage` nor `memory` (reading `memory.rss`);
      - `NoTmpEntry`: a disk table without a `/tmp` row (reading `Used` of the missing row). */
  datatype LoadError = NoLineData | EmptyLog | NoSampleData | NoRss | NoTmpEntry

  /** The errors a memory sample can throw. */
  predicate SampleFault(e: LoadError) {
    e == NoSampleData || e == NoRss || e == NoTmpEntry
  }

  predicate IsLogLine(e: Event) {
    e.msg == LogTag
  }

  predicate IsMemorySample(e: Event) {
    e.msg == NativeSampleTag || e.msg == RuntimeSampleTag
  }

  /** The text a log line contributes; a payload without `msg` joins as "". */
  function LineOf(e: Event): (r: Result<string, LoadError>)
    ensures r.Ok? <==> e.data.Some?
    ensures r.Err? ==> r.error == NoLineData
    ensures e.data.Some? && e.data.value.msg.Some? ==> r == Ok(e.data.value.msg.value)
    ensures e.data.Some? && e.data.value.msg.None? ==> r == Ok("")
  {
    match e.data
    case None => Err(NoLineData)
    case Some(p) => Ok(p.msg.GetOr(""))
  }

  /** `table.find(row => row.Mounted === mount)`: the first row for `mount`. */
  function FindMount(table: seq<DiskEntry>, mount: string): (r: Option<DiskEntry>)
    ensures r.None? <==> forall i :: 0 <= i < |table| ==> table[i].mounted != mount
    ensures r.Some? ==> exists i :: 0 <= i < |table| && table[i] == r.value && r.value.mounted == mount
                                    && forall j :: 0 <= j < i ==> table[j].mounted != mount
  {
    if |table| == 0 then None
    else if table[0].mounted == mount then Some(table[0])
    else
      var rest := FindMount(table[1..], mount);
      if rest.Some? then
        ghost var i :| 0 <= i < |table[1..]| && table[1..][i] == rest.value && rest.value.mounted == mount
                       && forall j :: 0 <= j < i ==> table[1..][j].mounted != mount;
        assert table[i + 1] == rest.value;
        rest
      else rest
  }

  /** Whether the compiler's reading decides the memory value: JavaScript
      treats a `memoryUsage` of 0, like an absent one, as false. */
  predicate HasNativeReading(p: Payload) {
    p.memoryUsage.Some? && p.memoryUsage.value != 0
  }

  /** The memory value of a sample, in bytes. */
  function MemoryOf(p: Payload): (r: Result<int, LoadError>)
    ensures HasNativeReading(p) ==> r == Ok(p.memoryUsage.value * KiB)
    ensures !HasNativeReading(p) && p.rss.Some? ==> r == Ok(p.rss.value)
    ensures r.Err? <==> !HasNativeReading(p) && p.rss.None?
    ensures r.Err? ==> r.error == NoRss
  {
    if HasNativeReading(p) then Ok(p.memoryUsage.value * KiB)
    else if p.rss.Some? then Ok(p.rss.value)
    else Err(NoRss)
  }

  /** The disk value of a sample, in bytes: 0 without a table, else the
      first `/tmp` row's usage; a table without such a row throws. */
  function DiskOf(p: Payload): (r: Result<int, LoadError>)
    ensures p.disk.None? ==> r == Ok(0)
    ensures r.Err? <==> p.disk.Some? && forall i :: 0 <= i < |p.disk.value| ==> p.disk.value[i].mounted != TmpMount
    ensures r.Err? ==> r.error == NoTmpEntry
    ensures r.Ok? && p.disk.Some? ==>
      exists i :: 0 <= i < |p.disk.value| && p.disk.value[i].mounted == TmpMount
                  && r.value == p.disk.value[i].used * KiB
                  && forall j :: 0 <= j < i ==> p.disk.value[j].mounted != TmpMount
  {
    match p.disk
    case None => Ok(0)
    case Some(table) =>
      match FindMount(table, TmpMount)
      case None => Err(NoTmpEntry)
      case Some(row) => Ok(row.used * KiB)
  }

  /** Whether a memory sample can be shaped without throwing, stated on the
      event directly: it has a payload, a memory reading, and either no disk
      table or one with a `/tmp` row. */
  predicate SampleReadable(e: Event) {
    && e.data.Some?
    && (HasNativeReading(e.data.value) || e.data.value.rss.Some?)
    && (e.data.value.disk.None? ||
        exists i :: 0 <= i < |e.data.value.disk.value| && e.data.value.disk.value[i].mounted == TmpMount)
  }

  /** One chart point from one memory-sample event. The fields are evaluated
      in the order the object literal lists them: memory, then disk. */
  function SampleOf(e: Event): (r: Result<Sample, LoadError>)
    ensures r.Ok? <==> SampleReadable(e)
    ensures r.Ok? ==> r.value.time == e.time
    ensures r.Ok? ==> Ok(r.value.memory) == MemoryOf(e.data.value) && Ok(r.value.disk) == DiskOf(e.data.value)
    ensures e.data.None? ==> r == Err(NoSampleData)
    ensures e.data.Some? && !HasNativeReading(e.data.value) && e.data.value.rss.None? ==> r == Err(NoRss)
    ensures e.data.Some? && MemoryOf(e.data.value).Ok? && DiskOf(e.data.value).Err? ==> r == Err(NoTmpEntry)
    ensures r.Err? ==> SampleFault(r.error)
  {
    match e.data
    case None => Err(NoSampleData)
    case Some(p) =>
      var memory :- MemoryOf(p);
      var disk :- DiskOf(p);
      Ok(Sample(memory, disk, e.time))
  }

  /** The transcript before markup conversion: the log lines' texts, in log
      order, separated by a blank line. */
  function ShellText(log: seq<Event>): (r: Result<string, LoadError>)
    ensures r.Ok? <==> forall i :: 0 <= i < |log| && IsLogLine(log[i]) ==> log[i].data.Some?
    ensures r.Err? ==> r.error == NoLineData
  {
    var kept := Filter(log, IsLogLine);
    FilterAll(log, IsLogLine, (e: Event) => e.data.Some?);
    var lines :- MapAll(kept, LineOf);
    Ok(Join(lines, LineSeparator))
  }

  /** The chart series: one point per memory-sample event, in log order. */
  function Series(log: seq<Event>): (r: Result<seq<Sample>, LoadError>)
    ensures r.Ok? <==> forall i :: 0 <= i < |log| && IsMemorySample(log[i]) ==> SampleReadable(log[i])
    ensures r.Ok? ==> |r.value| == |Positions(log, IsMemorySample)|
    ensures r.Err? ==> SampleFault(r.error)
  {
    var kept := Filter(log, IsMemorySample);
    FilterIsGather(log, IsMemorySample);
    FilterAll(log, IsMemorySample, SampleReadable);
    var r := MapAll(kept, SampleOf);
    assert r.Err? ==> SampleFault(r.error) by {
      if r.Err? {
        var i :| 0 <= i < |kept| && SampleOf(kept[i]) == Err(r.error);
      }
    }
    r
  }

  /** Shapes a decoded log into the view's data. `toHtml` is the ANSI-to-HTML
      converter, applied to the joined text. The fields are evaluated in the
      order the source's object literal lists them: shell, duration, memory;
      the first that throws decides the error. */
  function Load(log: seq<Event>, toHtml: string -> string): (r: Result<LoadResult, LoadError>)
    ensures r == Err(EmptyLog) <==> |log| == 0
    ensures r.Ok? ==> |log| > 0 && r.value.duration == log[|log| - 1].time
    ensures r.Ok? ==> ShellText(log).Ok? && r.value.shell == toHtml(ShellText(log).value)
    ensures r.Ok? ==> Series(log) == Ok(r.value.memory)
  {
    var text :- ShellText(log);
    var shell := toHtml(text);
    if |log| == 0 then Err(EmptyLog)
    else
      var duration := log[|log| - 1].time;
      var memory :- Series(log);
      Ok(LoadResult(shell, duration, memory))
  }

  /** The view's state: `loading` starts true; `data` and `error` start unset. */
  datatype LoadState = LoadState(loading: bool, data: Option<LoadResult>, error: Option<LoadError>)

  /** The state before the load completes. */
  const Pending: LoadState := LoadState(true, None, None)

  /** A completed load: no longer loading, and exactly one of data and error set. */
  predicate Settled(s: LoadState) {
    !s.loading && (s.data.Some? <==> s.error.None?)
  }

  /** The `try`/`catch`/`finally` around the shaping: a result is stored
      whole with `setData`, a thrown error with `setError`, and either way
      `loading` becomes false. The other field keeps its previous value. */
  function Complete(s: LoadState, outcome: Result<LoadResult, LoadError>): (t: LoadState)
    ensures !t.loading
    ensures outcome.Ok? ==> t.data == Some(outcome.value) && t.error == s.error
    ensures outcome.Err? ==> t.error == Some(outcome.error) && t.data == s.data
  {
    match outcome
    case Ok(v) => s.(data := Some(v), loading := false)
    case Err(e) => s.(error := Some(e), loading := false)
  }
}

=== FILE: build_status_lemmas.dfy ===
/** Properties of the build-status shaping, stated against the positions of
    the events in the log rather than against the filter-map pipeline. */
module BuildStatusLemmas {
  import opened Wrappers
  import opened Seqs
  import opened BuildStatus

  /** The text a log line contributes, read directly off the event. */
  function TextOf(e: Event): string {
    if e.data.Some? then e.data.value.msg.GetOr("") else ""
  }

  /** The transcript lines: the texts of the log-line events at the given
      indices, in that order. */
  function LinesAt(log: seq<Event>, idx: seq<nat>): (r: seq<string>)
    requires forall k :: 0 <= k < |idx| ==> idx[k] < |log|
    ensures |r| == |idx|
  {
    seq(|idx|, k requires 0 <= k < |idx| => TextOf(log[idx[k]]))
  }

  /** A readable transcript is the join of the mapped log lines. */
  lemma ShellTextUnfold(log: seq<Event>)
    requires ShellText(log).Ok?
    ensures MapAll(Filter(log, IsLogLine), LineOf).Ok?
    ensures ShellText(log).value == Join(MapAll(Filter(log, IsLogLine), LineOf).value, LineSeparator)
  {
  }

  /** The transcript text is the text of every log-line event, in log order,
      joined by a blank line. */
  lemma ShellTextSpec(log: seq<Event>)
    requires ShellText(log).Ok?
    ensures ShellText(log).value == Join(LinesAt(log, Positions(log, IsLogLine)), LineSeparator)
  {
    var lines := Positions(log, IsLogLine);
    var kept := Filter(log, IsLogLine);
    FilterIsGather(log, IsLogLine);
    ShellTextUnfold(log);
    var texts := MapAll(kept, LineOf).value;
    forall k | 0 <= k < |lines|
      ensures texts[k] == LinesAt(log, lines)[k]
    {
      assert kept[k] == log[lines[k]];
    }
    assert texts == LinesAt(log, lines);
  }

  /** The series has one point per memory-sample event, in log order, each
      shaped from that event alone and carrying its time unchanged. */
  lemma SeriesSpec(log: seq<Event>)
    requires Series(log).Ok?
    ensures var series := Series(log).value;
            var samples := Positions(log, IsMemorySample);
            && |series| == |samples|
            && (forall k :: 0 <= k < |samples| ==> Ok(series[k]) == SampleOf(log[samples[k]]))
            && (forall k :: 0 <= k < |samples| ==> series[k].time == log[samples[k]].time)
  {
    var samples := Positions(log, IsMemorySample);
    var kept := Filter(log, IsMemorySample);
    FilterIsGather(log, IsMemorySample);
    var series := Series(log).value;
    forall k | 0 <= k < |samples|
      ensures Ok(series[k]) == SampleOf(log[samples[k]])
    {
      assert kept[k] == log[samples[k]];
    }
  }

  /** A successful load's transcript is the converted text of every log-line
      event in log order, and its series has one point per memory-sample
      event, in log order. */
  lemma LoadSpec(log: seq<Event>, toHtml: string -> string)
    requires Load(log, toHtml).Ok?
    ensures var r := Load(log, toHtml).value;
            var samples := Positions(log, IsMemorySample);
            && r.shell == toHtml(Join(LinesAt(log, Positions(log, IsLogLine)), LineSeparator))
            && r.duration == log[|log| - 1].time
            && |r.memory| == |samples|
            && (forall k :: 0 <= k < |samples| ==> Ok(r.memory[k]) == SampleOf(log[samples[k]]))
  {
    ShellTextSpec(log);
    SeriesSpec(log);
  }

  /** A load succeeds exactly when the log is non-empty, every log line has a
      payload and every memory sample can be shaped. */
  lemma LoadSucceedsIff(log: seq<Event>, toHtml: string -> string)
    ensures Load(log, toHtml).Ok? <==>
            && |log| > 0
            && (forall i :: 0 <= i < |log| && IsLogLine(log[i]) ==> log[i].data.Some?)
            && (forall i :: 0 <= i < |log| && IsMemorySample(log[i]) ==> SampleReadable(log[i]))
  {
    var r := Load(log, toHtml);
    if |log| > 0 && ShellText(log).Ok? && Series(log).Ok? {
      assert r.Ok?;
    }
  }

  /** The transcript is evaluated first, so a log line without a payload
      decides the error whatever else is wrong with the log. */
  lemma LineErrorFirst(log: seq<Event>, toHtml: string -> string, i: nat)
    requires i < |log| && IsLogLine(log[i]) && log[i].data.None?
    ensures Load(log, toHtml) == Err(NoLineData)
  {
  }

  /** A failing series reports the error of its first unreadable
      memory-sample event. */
  lemma SeriesErrorIsFirstFailure(log: seq<Event>)
    requires Series(log).Err?
    ensures exists k :: 0 <= k < |log| && IsMemorySample(log[k])
              && SampleOf(log[k]) == Err(Series(log).error)
              && forall j :: 0 <= j < k && IsMemorySample(log[j]) ==> SampleReadable(log[j])
  {
    assert Series(log) == MapAll(Filter(log, IsMemorySample), SampleOf);
    MapAllFilterFirstFailure(log, IsMemorySample, SampleOf);
    var k :| FirstFailureAt(log, IsMemorySample, SampleOf, Series(log).error, k);
    assert 0 <= k < |log| && IsMemorySample(log[k]) && SampleOf(log[k]) == Err(Series(log).error);
  }

  /** A non-empty log whose transcript is readable (every log line has a
      payload) but whose load fails reports the error of the first
      unreadable memory-sample event. */
  lemma SampleErrorIsFirstFailure(log: seq<Event>, toHtml: string -> string)
    requires |log| > 0 && ShellText(log).Ok? && Load(log, toHtml).Err?
    ensures exists k :: 0 <= k < |log| && IsMemorySample(log[k])
              && SampleOf(log[k]) == Err(Load(log, toHtml).error)
              && forall j :: 0 <= j < k && IsMemorySample(log[j]) ==> SampleReadable(log[j])
  {
    assert Load(log, toHtml) == Series(log).PropagateFailure();
    SeriesErrorIsFirstFailure(log);
  }

  /** Two logs with the same transcript, series and last event time load
      to the same result. */
  lemma LoadCongruent(l1: seq<Event>, l2: seq<Event>, toHtml: string -> string)
    requires ShellText(l1) == ShellText(l2) && Series(l1) == Series(l2)
    requires |l1| > 0 && |l2| > 0 && l1[|l1| - 1].time == l2[|l2| - 1].time
    ensures Load(l1, toHtml) == Load(l2, toHtml)
  {
  }

  /** A non-empty log with the transcript and series of a non-empty log
      that fails to load fails with the same error. */
  lemma LoadFailsAlike(l1: seq<Event>, l2: seq<Event>, toHtml: string -> string)
    requires ShellText(l1) == ShellText(l2) && Series(l1) == Series(l2)
    requires |l1| > 0 && |l2| > 0 && Load(l1, toHtml).Err?
    ensures Load(l2, toHtml) == Load(l1, toHtml)
  {
  }

  /** A log with the transcript and series of a loadable log loads to the
      same result with its own last event time as the duration. */
  lemma LoadRetimed(l1: seq<Event>, l2: seq<Event>, toHtml: string -> string)
    requires ShellText(l1) == ShellText(l2) && Series(l1) == Series(l2)
    requires |l2| > 0 && Load(l1, toHtml).Ok?
    ensures Load(l2, toHtml) == Ok(Load(l1, toHtml).value.(duration := l2[|l2| - 1].time))
  {
  }

  /** An event tagged neither as a log line nor as a memory sample adds
      nothing to the transcript or the series, wherever it stands; it only
      decides the duration when it is the last event. */
  lemma UnrelatedEventIgnored(a: seq<Event>, x: Event, b: seq<Event>, toHtml: string -> string)
    requires !IsLogLine(x) && !IsMemorySample(x)
    ensures ShellText(a + [x] + b) == ShellText(a + b)
    ensures Series(a + [x] + b) == Series(a + b)
    ensures |b| > 0 ==> Load(a + [x] + b, toHtml) == Load(a + b, toHtml)
    ensures |a| > 0 && |b| == 0 && Load(a, toHtml).Ok? ==>
              Load(a + [x], toHtml) == Ok(Load(a, toHtml).value.(duration := x.time))
    ensures |a| > 0 && |b| == 0 && Load(a, toHtml).Err? ==> Load(a + [x], toHtml) == Load(a, toHtml)
  {
    var withX := a + [x] + b;
    FilterSkipsRejected(a, x, b, IsLogLine);
    FilterSkipsRejected(a, x, b, IsMemorySample);
    if |b| == 0 {
      assert withX == a + [x] && a + b == a;
      if |a| > 0 && Load(a, toHtml).Ok? {
        LoadRetimed(a, withX, toHtml);
      } else if |a| > 0 {
        LoadFailsAlike(a, withX, toHtml);
      }
    } else {
      assert withX[|withX| - 1] == (a + b)[|a + b| - 1];
      LoadCongruent(withX, a + b, toHtml);
    }
  }

  /** The worked example: a log line, a runtime sample, then a second log
      line. It exercises both filters at once (the sample sits between the
      two lines it must not enter), the blank-line join, the duration taken
      from the last event, and the `memoryUsage` path of a sample without a
      disk table. Its facts are proved one step per lemma below. */
  function TwoLinesLog(): seq<Event> {
    [ Event(LogTag, 0.1, Some(Payload(Some("hello"), None, None, None))),
      Event(RuntimeSampleTag, 0.2, Some(Payload(None, None, Some(2048), None))),
      Event(LogTag, 0.3, Some(Payload(Some("done"), None, None, None))) ]
  }

  lemma TwoLinesLogLines()
    ensures Filter(TwoLinesLog(), IsLogLine) == [TwoLinesLog()[0], TwoLinesLog()[2]]
  {
    var log := TwoLinesLog();
    assert log[1..][1..] == [log[2]];
    assert [log[2]][1..] == [];
  }

  lemma TwoLinesTexts()
    ensures MapAll([TwoLinesLog()[0], TwoLinesLog()[2]], LineOf) == Ok(["hello", "done"])
  {
    var log := TwoLinesLog();
    var texts := MapAll([log[0], log[2]], LineOf);
    assert LineOf(log[0]) == Ok("hello") && LineOf(log[2]) == Ok("done");
    assert texts.Ok? && |texts.value| == 2;
    assert texts.value == ["hello", "done"];
  }

  lemma TwoLinesJoined()
    ensures Join(["hello", "done"], LineSeparator) == "hello\n\ndone"
  {
    assert ["hello", "done"][1..] == ["done"];
  }

  lemma TwoLinesShell()
    ensures ShellText(TwoLinesLog()) == Ok("hello\n\ndone")
  {
    TwoLinesLogLines();
    TwoLinesTexts();
    TwoLinesJoined();
  }

  lemma TwoLinesSeries()
    ensures Series(TwoLinesLog()) == Ok([Sample(2048, 0, 0.2)])
  {
    var log := TwoLinesLog();
    assert log[1..][1..] == [log[2]];
    assert [log[2]][1..] == [];
    assert Filter(log, IsMemorySample) == [log[1]];
    assert SampleOf(log[1]) == Ok(Sample(2048, 0, 0.2));
    var points := MapAll([log[1]], SampleOf);
    assert points.Ok? && |points.value| == 1;
    assert points.value[0] == Sample(2048, 0, 0.2);
    assert points.value == [Sample(2048, 0, 0.2)];
    assert Series(log) == points;
  }

  /** The two-lines scenario loads into the joined transcript, the time of
      the last event and one runtime point with no disk reading. */
  lemma TwoLinesOneSample(toHtml: string -> string)
    ensures Load(TwoLinesLog(), toHtml) == Ok(LoadResult(toHtml("hello\n\ndone"), 0.3, [Sample(2048, 0, 0.2)]))
  {
    TwoLinesShell();
    TwoLinesSeries();
  }

  /** A non-zero compiler reading is in KiB and is scaled to bytes; a
      present `memory.rss` is then ignored. */
  lemma NativeReadingWins(t: real, kib: int, rss: Option<int>)
    requires kib != 0
    ensures SampleOf(Event(NativeSampleTag, t, Some(Payload(None, Some(kib), rss, None))))
            == Ok(Sample(kib * 1024, 0, t))
  {
  }

  /** A compiler reading of 0 counts as absent: the sample takes `memory.rss`,
      and throws when that is missing too. */
  lemma ZeroReadingFallsBackToRss(t: real, rss: Option<int>)
    ensures var s := SampleOf(Event(NativeSampleTag, t, Some(Payload(None, Some(0), rss, None))));
            && (rss.Some? ==> s == Ok(Sample(rss.value, 0, t)))
            && (rss.None? ==> s == Err(NoRss))
  {
  }

  /** A runtime sample whose disk table has no `/tmp` row cannot be shaped. */
  lemma SampleWithoutTmp(t: real, table: seq<DiskEntry>)
    requires forall i :: 0 <= i < |table| ==> table[i].mounted != TmpMount
    ensures SampleOf(Event(RuntimeSampleTag, t, Some(Payload(None, None, Some(1), Some(table))))) == Err(NoTmpEntry)
  {
    assert FindMount(table, TmpMount).None?;
  }

  /** Events that are neither log lines nor memory samples, followed by one
      sample `x`, give a series of `x` alone and an empty transcript. */
  lemma OnlySampleAtEnd(before: seq<Event>, x: Event)
    requires IsMemorySample(x) && !IsLogLine(x)
    requires forall i :: 0 <= i < |before| ==> !IsLogLine(before[i]) && !IsMemorySample(before[i])
    ensures Filter(before + [x], IsMemorySample) == [x]
    ensures ShellText(before + [x]).Ok?
  {
    var log := before + [x];
    FilterConcat(before, [x], IsMemorySample);
    FilterNone(before, IsMemorySample);
    assert [x][1..] == [];
    forall i | 0 <= i < |log|
      ensures !IsLogLine(log[i])
    {
      if i < |before| {
        assert log[i] == before[i];
      }
    }
  }

  /** A disk table, even an empty one, without a `/tmp` row fails the whole
      load instead of charting 0. */
  lemma TableWithoutTmpFailsLoad(before: seq<Event>, t: real, table: seq<DiskEntry>, toHtml: string -> string)
    requires forall i :: 0 <= i < |table| ==> table[i].mounted != TmpMount
    requires forall i :: 0 <= i < |before| ==> !IsLogLine(before[i]) && !IsMemorySample(before[i])
    ensures Load(before + [Event(RuntimeSampleTag, t, Some(Payload(None, None, Some(1), Some(table))))], toHtml)
            == Err(NoTmpEntry)
  {
    var x := Event(RuntimeSampleTag, t, Some(Payload(None, None, Some(1), Some(table))));
    var log := before + [x];
    OnlySampleAtEnd(before, x);
    SampleWithoutTmp(t, table);
    MapAllHeadFails([x], SampleOf);
    assert Series(log) == Err(NoTmpEntry);
    assert Load(log, toHtml) == Series(log).PropagateFailure();
  }

  /** Anywhere in any log, a memory sample whose disk table has no `/tmp`
      row makes the load fail, whatever the other events are. */
  lemma TableWithoutTmpFailsAnyLoad(a: seq<Event>, x: Event, b: seq<Event>, toHtml: string -> string)
    requires IsMemorySample(x) && x.data.Some? && x.data.value.disk.Some?
    requires forall i :: 0 <= i < |x.data.value.disk.value| ==> x.data.value.disk.value[i].mounted != TmpMount
    ensures Load(a + [x] + b, toHtml).Err?
  {
    var log := a + [x] + b;
    assert log[|a|] == x;
    assert !SampleReadable(x);
    LoadSucceedsIff(log, toHtml);
  }

  /** The disk value is the first `/tmp` row's usage, scaled from KiB. */
  lemma FirstTmpRowCounts(t: real, other: DiskEntry, used: int, later: int)
    requires other.mounted != TmpMount
    ensures var table := [other, DiskEntry(TmpMount, used), DiskEntry(TmpMount, later)];
            SampleOf(Event(RuntimeSampleTag, t, Some(Payload(None, None, Some(0), Some(table)))))
            == Ok(Sample(0, used * 1024, t))
  {
    var table := [other, DiskEntry(TmpMount, used), DiskEntry(TmpMount, later)];
    assert FindMount(table, TmpMount) == Some(table[1]) by {
      assert table[1..][0] == DiskEntry(TmpMount, used);
    }
  }

  /** After one load the view is settled: no longer loading, exactly one of
      data and error set, data holding the complete result exactly when the
      shaping succeeded. */
  lemma LoadSettles(log: seq<Event>, toHtml: string -> string)
    ensures var t := Complete(Pending, Load(log, toHtml));
            && Settled(t)
            && (t.data.Some? <==> Load(log, toHtml).Ok?)
            && (t.data.Some? ==> Load(log, toHtml) == Ok(t.data.value))
            && (t.error.Some? ==> Load(log, toHtml) == Err(t.error.value))
            && (|log| == 0 ==> t.error == Some(EmptyLog))
  {
  }
}

=== FILE: hex.dfy ===
/** Node's hexadecimal buffer codec as the query service uses it for
    contract addresses: `buffer.toString('hex')` on result rows and
    `Buffer.from(text, 'hex')` on request addresses, each behind a `0x`
    prefix. */
module Hex {
  import opened Wrappers

  type byte = x: int | 0 <= x < 256

  /** The digits `toString('hex')` writes, indexed by value. */
  const LowerDigits: string := "0123456789abcdef"

  /** The value of a hexadecimal digit in either case, as `Buffer.from`
      reads it. */
  function DigitValue(c: char): (r: Option<int>)
    ensures r.Some? ==> 0 <= r.value < 16
    ensures r.Some? <==> ('0' <= c <= '9' || 'a' <= c <= 'f' || 'A' <= c <= 'F')
  {
    if '0' <= c <= '9' then Some(c as int - '0' as int)
    else if 'a' <= c <= 'f' then Some(c as int - 'a' as int + 10)
    else if 'A' <= c <= 'F' then Some(c as int - 'A' as int + 10)
    else None
  }

  predicate IsHexDigit(c: char) {
    DigitValue(c).Some?
  }

  /** The lower-case spelling of a digit. */
  function LowerDigit(c: char): (r: char)
    requires IsHexDigit(c)
    ensures r in LowerDigits
    ensures DigitValue(r) == DigitValue(c)
  {
    LowerDigits[DigitValue(c).value]
  }

  /** Each digit written is the lower-case digit of the value it stands for. */
  lemma DigitRoundTrip(n: int)
    requires 0 <= n < 16
    ensures DigitValue(LowerDigits[n]) == Some(n)
  {
  }

  /** The digit written for a byte's high nibble. */
  function HighDigit(b: byte): (r: char)
    ensures r in LowerDigits
  {
    LowerDigits[b / 16]
  }

  /** The digit written for a byte's low nibble. */
  function LowDigit(b: byte): (r: char)
    ensures r in LowerDigits
  {
    LowerDigits[b % 16]
  }

  /** Two lower-case digits in front of lower-case digits are lower-case digits. */
  lemma LowerDigitsCons(hi: char, lo: char, rest: string)
    requires hi in LowerDigits && lo in LowerDigits
    requires forall i :: 0 <= i < |rest| ==> rest[i] in LowerDigits
    ensures var s := [hi, lo] + rest;
            forall i :: 0 <= i < |s| ==> s[i] in LowerDigits
  {
    var s := [hi, lo] + rest;
    forall i | 2 <= i < |s|
      ensures s[i] in LowerDigits
    {
      assert s[i] == rest[i - 2];
    }
  }

  /** Two characters per element: those of the first element in front of
      those of the rest are those of every element, pair by pair. */
  lemma PairsStep<T>(xs: seq<T>, hi: T -> char, lo: T -> char, rest: string)
    requires |xs| > 0 && |rest| == 2 * (|xs| - 1)
    requires forall k :: 0 <= k < |xs| - 1 ==> rest[2 * k] == hi(xs[1..][k]) && rest[2 * k + 1] == lo(xs[1..][k])
    ensures var s := [hi(xs[0]), lo(xs[0])] + rest;
            forall k :: 0 <= k < |xs| ==> s[2 * k] == hi(xs[k]) && s[2 * k + 1] == lo(xs[k])
  {
    var s := [hi(xs[0]), lo(xs[0])] + rest;
    forall k | 1 <= k < |xs|
      ensures s[2 * k] == hi(xs[k]) && s[2 * k + 1] == lo(xs[k])
    {
      assert xs[k] == xs[1..][k - 1];
      assert s[2 * k] == rest[2 * (k - 1)] && s[2 * k + 1] == rest[2 * (k - 1) + 1];
    }
  }

  /** `toString('hex')`: two lower-case digits per byte, high nibble first. */
  function Encode(bytes: seq<byte>): (s: string)
    ensures |s| == 2 * |bytes|
    ensures forall i :: 0 <= i < |s| ==> s[i] in LowerDigits
    ensures forall k :: 0 <= k < |bytes| ==>
              s[2 * k] == HighDigit(bytes[k]) && s[2 * k + 1] == LowDigit(bytes[k])
  {
    if |bytes| == 0 then ""
    else
      var rest := Encode(bytes[1..]);
      LowerDigitsCons(HighDigit(bytes[0]), LowDigit(bytes[0]), rest);
      PairsStep(bytes, HighDigit, LowDigit, rest);
      [HighDigit(bytes[0]), LowDigit(bytes[0])] + rest
  }

  /** Whether the two characters at `2 * k` form a hexadecimal pair. */
  predicate PairAt(s: string, k: nat) {
    2 * k + 1 < |s| && IsHexDigit(s[2 * k]) && IsHexDigit(s[2 * k + 1])
  }

  /** The byte a hexadecimal pair stands for. */
  function PairValue(s: string, k: nat): byte
    requires PairAt(s, k)
  {
    DigitValue(s[2 * k]).value * 16 + DigitValue(s[2 * k + 1]).value
  }

  /** The byte of a leading pair in front of the bytes decoded from the
      rest are the bytes decoded from the whole text. */
  lemma DecodeStep(s: string, rest: seq<byte>)
    requires PairAt(s, 0) && |rest| <= (|s| - 2) / 2
    requires forall k :: 0 <= k < |rest| ==> PairAt(s[2..], k) && rest[k] == PairValue(s[2..], k)
    requires !PairAt(s[2..], |rest|)
    ensures var r := [PairValue(s, 0)] + rest;
            && |r| <= |s| / 2
            && (forall k :: 0 <= k < |r| ==> PairAt(s, k) && r[k] == PairValue(s, k))
            && !PairAt(s, |r|)
  {
    var tail := s[2..];
    var r := [PairValue(s, 0)] + rest;
    forall k | 1 <= k < |r|
      ensures PairAt(s, k) && r[k] == PairValue(s, k)
    {
      assert r[k] == rest[k - 1] && PairAt(tail, k - 1);
      assert s[2 * k] == tail[2 * (k - 1)] && s[2 * k + 1] == tail[2 * (k - 1) + 1];
    }
    if 2 * |r| + 1 < |s| {
      assert s[2 * |r|] == tail[2 * |rest|] && s[2 * |r| + 1] == tail[2 * |rest| + 1];
    }
  }

  /** `Buffer.from(s, 'hex')`: one byte per pair of digits, from the start,
      stopping at the first pair that is not two digits; a lone last
      character is ignored. */
  function Decode(s: string): (r: seq<byte>)
    ensures |r| <= |s| / 2
    ensures forall k :: 0 <= k < |r| ==> PairAt(s, k) && r[k] == PairValue(s, k)
    ensures !PairAt(s, |r|)
  {
    if |s| < 2 then []
    else if IsHexDigit(s[0]) && IsHexDigit(s[1]) then
      var rest := Decode(s[2..]);
      DecodeStep(s, rest);
      [PairValue(s, 0)] + rest
    else []
  }

  /** A text that opens with a hexadecimal pair decodes to that pair's
      byte followed by the decoding of the rest. */
  lemma DecodeCons(s: string)
    requires PairAt(s, 0)
    ensures Decode(s) == [PairValue(s, 0)] + Decode(s[2..])
  {
  }

  /** The two digits written for a byte read back as that byte. */
  lemma EncodedPair(s: string, b: byte)
    requires |s| >= 2 && s[0] == HighDigit(b) && s[1] == LowDigit(b)
    ensures PairAt(s, 0) && PairValue(s, 0) == b
  {
    DigitRoundTrip(b / 16);
    DigitRoundTrip(b % 16);
  }

  /** Decoding what was encoded gives back the bytes. */
  lemma {:induction false} DecodeEncode(bytes: seq<byte>)
    ensures Decode(Encode(bytes)) == bytes
  {
    if |bytes| > 0 {
      var s := Encode(bytes);
      assert s == [HighDigit(bytes[0]), LowDigit(bytes[0])] + Encode(bytes[1..]);
      EncodedPair(s, bytes[0]);
      DecodeCons(s);
      assert s[2..] == Encode(bytes[1..]);
      DecodeEncode(bytes[1..]);
      assert bytes == [bytes[0]] + bytes[1..];
    }
  }

  predicate IsHexText(s: string) {
    forall i :: 0 <= i < |s| ==> IsHexDigit(s[i])
  }

  /** The text with every digit in lower case. */
  function Lower(s: string): (r: string)
    requires IsHexText(s)
    ensures |r| == |s|
  {
    seq(|s|, i requires 0 <= i < |s| => LowerDigit(s[i]))
  }

  /** The two digits written for a pair's byte are that pair in lower case. */
  lemma PairReEncoded(s: string)
    requires PairAt(s, 0)
    ensures HighDigit(PairValue(s, 0)) == LowerDigit(s[0])
    ensures LowDigit(PairValue(s, 0)) == LowerDigit(s[1])
  {
    var hi := DigitValue(s[0]).value;
    var lo := DigitValue(s[1]).value;
    assert PairValue(s, 0) / 16 == hi && PairValue(s, 0) % 16 == lo;
  }

  lemma EncodeCons(bytes: seq<byte>)
    requires |bytes| > 0
    ensures Encode(bytes) == [HighDigit(bytes[0]), LowDigit(bytes[0])] + Encode(bytes[1..])
  {
  }

  lemma LowerCons(s: string)
    requires IsHexText(s) && |s| >= 2
    ensures IsHexText(s[2..])
    ensures Lower(s) == [LowerDigit(s[0]), LowerDigit(s[1])] + Lower(s[2..])
  {
    assert IsHexText(s[2..]);
    var r := [LowerDigit(s[0]), LowerDigit(s[1])] + Lower(s[2..]);
    forall i | 0 <= i < |s|
      ensures Lower(s)[i] == r[i]
    {
      if i >= 2 {
        assert s[i] == s[2..][i - 2];
      }
    }
  }

  /** Encoding what was decoded from an even run of digits gives back the
      same digits, in lower case. */
  lemma {:induction false} EncodeDecode(s: string)
    requires IsHexText(s) && |s| % 2 == 0
    ensures Encode(Decode(s)) == Lower(s)
  {
    if |s| > 0 {
      LowerCons(s);
      EncodeDecode(s[2..]);
      DecodeCons(s);
      var b := Decode(s);
      var rest := Decode(s[2..]);
      assert b[0] == PairValue(s, 0) && b[1..] == rest;
      EncodeCons(b);
      PairReEncoded(s);
    }
  }

  /** The `0x` prefix of an address. */
  const Prefix: string := "0x"

  /** A result row's address as the service returns it: `'0x'` followed by
      the bytes in lower-case hexadecimal. */
  function FormatAddress(bytes: seq<byte>): (r: string)
    ensures |r| == 2 + 2 * |bytes|
    ensures r[..2] == Prefix
    ensures forall i :: 2 <= i < |r| ==> r[i] in LowerDigits
  {
    Prefix + Encode(bytes)
  }

  /** `text.slice(2)`: everything after the first two characters; "" for a
      shorter text. */
  function DropPrefix(text: string): (r: string)
    ensures |text| >= 2 ==> text == text[..2] + r
    ensures |text| < 2 ==> r == ""
  {
    if |text| >= 2 then text[2..] else ""
  }

  /** The bytes decoded after the first two characters, read off the text:
      each is the pair at its offset. */
  lemma DecodeAfterPrefix(text: string, r: seq<byte>)
    requires r == Decode(DropPrefix(text))
    ensures r == [] || 2 + 2 * |r| <= |text|
    ensures forall k :: 0 <= k < |r| ==>
              && IsHexDigit(text[2 + 2 * k]) && IsHexDigit(text[3 + 2 * k])
              && r[k] == DigitValue(text[2 + 2 * k]).value * 16 + DigitValue(text[3 + 2 * k]).value
  {
    var rest := DropPrefix(text);
    forall k | 0 <= k < |r|
      ensures IsHexDigit(text[2 + 2 * k]) && IsHexDigit(text[3 + 2 * k])
      ensures r[k] == DigitValue(text[2 + 2 * k]).value * 16 + DigitValue(text[3 + 2 * k]).value
    {
      assert PairAt(rest, k) && r[k] == PairValue(rest, k);
      assert rest[2 * k] == text[2 + 2 * k] && rest[2 * k + 1] == text[3 + 2 * k];
    }
  }

  /** A request address as the service hands it to the store: the bytes of
      the hexadecimal text after its first two characters, up to the first
      position that is not a pair. */
  function DecodeAddress(text: string): (r: seq<byte>)
    ensures r == [] || 2 + 2 * |r| <= |text|
    ensures forall k :: 0 <= k < |r| ==>
              && IsHexDigit(text[2 + 2 * k]) && IsHexDigit(text[3 + 2 * k])
              && r[k] == DigitValue(text[2 + 2 * k]).value * 16 + DigitValue(text[3 + 2 * k]).value
    ensures !PairAt(DropPrefix(text), |r|)
  {
    var r := Decode(DropPrefix(text));
    DecodeAfterPrefix(text, r);
    r
  }

  /** Decoding a request address stops at the first offset after the first
      two characters that does not hold two hexadecimal digits. */
  lemma DecodeAddressStops(text: string)
    ensures var r := DecodeAddress(text);
            3 + 2 * |r| < |text| ==> !(IsHexDigit(text[2 + 2 * |r|]) && IsHexDigit(text[3 + 2 * |r|]))
  {
    var r := DecodeAddress(text);
    var rest := DropPrefix(text);
    if 3 + 2 * |r| < |text| {
      assert rest[2 * |r|] == text[2 + 2 * |r|] && rest[2 * |r| + 1] == text[3 + 2 * |r|];
    }
  }

  /** Reading back a formatted address gives the stored bytes. */
  lemma AddressRoundTrip(bytes: seq<byte>)
    ensures DecodeAddress(FormatAddress(bytes)) == bytes
  {
    assert DropPrefix(FormatAddress(bytes)) == Encode(bytes);
    DecodeEncode(bytes);
  }

  /** Formatting a decoded `0x` address with an even number of digits gives
      the same address with its digits in lower case. */
  lemma AddressCanonical(text: string)
    requires |text| >= 2 && text[..2] == Prefix
    requires IsHexText(text[2..]) && |text| % 2 == 0
    ensures FormatAddress(DecodeAddress(text)) == Prefix + Lower(text[2..])
  {
    EncodeDecode(text[2..]);
  }
}

=== FILE: seqs.dfy ===
/** Sequence operations the modelled code uses through JavaScript's array
    methods: `filter`, `map` over a callback that may throw, and `join`.
    Each comes with an independent characterisation (positions of the kept
    elements, element-wise results, layout of the joined text). */
module Seqs {
  import opened Wrappers

  /** `xs.filter(keep)`: the elements that satisfy `keep`, in their original order. */
  function Filter<T>(xs: seq<T>, keep: T -> bool): (r: seq<T>)
    ensures |r| <= |xs|
    ensures forall x :: x in r ==> x in xs && keep(x)
    ensures forall x :: x in xs && keep(x) ==> x in r
  {
    if |xs| == 0 then []
    else (if keep(xs[0]) then [xs[0]] else []) + Filter(xs[1..], keep)
  }

  /** Filtering a concatenation filters each part: the kept elements of `a`
      come first, in order, followed by those of `b`. */
  lemma {:induction false} FilterConcat<T>(a: seq<T>, b: seq<T>, keep: T -> bool)
    ensures Filter(a + b, keep) == Filter(a, keep) + Filter(b, keep)
  {
    if |a| == 0 {
      assert a + b == b;
    } else {
      assert (a + b)[1..] == a[1..] + b;
      FilterConcat(a[1..], b, keep);
    }
  }

  /** An element that `keep` rejects contributes nothing, wherever it stands. */
  lemma FilterSkipsRejected<T>(a: seq<T>, x: T, b: seq<T>, keep: T -> bool)
    requires !keep(x)
    ensures Filter(a + [x] + b, keep) == Filter(a + b, keep)
  {
    FilterConcat(a + [x], b, keep);
    FilterConcat(a, [x], keep);
    FilterConcat(a, b, keep);
    assert Filter([x], keep) == [] by {
      assert [x][1..] == [];
    }
  }

  /** A property holds of every kept element exactly when it holds of every
      element of `xs` that `keep` accepts. */
  lemma FilterAll<T>(xs: seq<T>, keep: T -> bool, p: T -> bool)
    ensures (forall k :: 0 <= k < |Filter(xs, keep)| ==> p(Filter(xs, keep)[k]))
        <==> (forall i :: 0 <= i < |xs| && keep(xs[i]) ==> p(xs[i]))
  {
    var r := Filter(xs, keep);
    if forall k :: 0 <= k < |r| ==> p(r[k]) {
      forall i | 0 <= i < |xs| && keep(xs[i])
        ensures p(xs[i])
      {
        assert xs[i] in r;
        var k :| 0 <= k < |r| && r[k] == xs[i];
        assert p(r[k]);
      }
    }
    if forall i :: 0 <= i < |xs| && keep(xs[i]) ==> p(xs[i]) {
      forall k | 0 <= k < |r|
        ensures p(r[k])
      {
        assert r[k] in r;
        assert r[k] in xs && keep(r[k]);
        var i :| 0 <= i < |xs| && xs[i] == r[k];
        assert keep(xs[i]) && p(xs[i]);
      }
    }
  }

  /** Nothing is kept when `keep` accepts no element. */
  lemma {:induction false} FilterNone<T>(xs: seq<T>, keep: T -> bool)
    requires forall i :: 0 <= i < |xs| ==> !keep(xs[i])
    ensures Filter(xs, keep) == []
  {
    if |xs| > 0 {
      FilterNone(xs[1..], keep);
    }
  }

  /** Strictly increasing indices. */
  predicate Increasing(idx: seq<nat>) {
    forall k, m :: 0 <= k < m < |idx| ==> idx[k] < idx[m]
  }

  /** A value below every element of an increasing sequence can be put in front. */
  lemma IncreasingCons(x: nat, rest: seq<nat>)
    requires Increasing(rest)
    requires forall k :: 0 <= k < |rest| ==> x < rest[k]
    ensures Increasing([x] + rest)
  {
    var r := [x] + rest;
    forall k, m | 0 <= k < m < |r|
      ensures r[k] < r[m]
    {
      assert r[m] == rest[m - 1];
      if k > 0 {
        assert r[k] == rest[k - 1];
      }
    }
  }

  /** The indices `i >= lo` with `keep(xs[i])`, in increasing order. */
  function PositionsFrom<T>(xs: seq<T>, keep: T -> bool, lo: nat): (r: seq<nat>)
    requires lo <= |xs|
    ensures forall k :: 0 <= k < |r| ==> lo <= r[k] < |xs| && keep(xs[r[k]])
    ensures forall i :: lo <= i < |xs| && keep(xs[i]) ==> i in r
    ensures Increasing(r)
    decreases |xs| - lo
  {
    if lo == |xs| then []
    else if keep(xs[lo]) then
      var rest := PositionsFrom(xs, keep, lo + 1);
      IncreasingCons(lo, rest);
      [lo] + rest
    else
      PositionsFrom(xs, keep, lo + 1)
  }

  /** Every index of an element of `xs` that satisfies `keep`, in increasing order. */
  function Positions<T>(xs: seq<T>, keep: T -> bool): (r: seq<nat>)
    ensures forall k :: 0 <= k < |r| ==> r[k] < |xs| && keep(xs[r[k]])
    ensures forall i :: 0 <= i < |xs| ==> (keep(xs[i]) <==> i in r)
    ensures Increasing(r)
  {
    PositionsFrom(xs, keep, 0)
  }

  /** The elements of `xs` at the indices `idx`, in that order. */
  function Gather<T>(xs: seq<T>, idx: seq<nat>): (r: seq<T>)
    requires forall k :: 0 <= k < |idx| ==> idx[k] < |xs|
    ensures |r| == |idx|
    ensures forall k :: 0 <= k < |idx| ==> r[k] == xs[idx[k]]
  {
    seq(|idx|, k requires 0 <= k < |idx| => xs[idx[k]])
  }

  lemma GatherConcat<T>(xs: seq<T>, a: seq<nat>, b: seq<nat>)
    requires forall k :: 0 <= k < |a| ==> a[k] < |xs|
    requires forall k :: 0 <= k < |b| ==> b[k] < |xs|
    ensures Gather(xs, a + b) == Gather(xs, a) + Gather(xs, b)
  {
  }

  /** One step of `Filter`: the first element, if kept, then the rest filtered. */
  lemma FilterCons<T>(xs: seq<T>, keep: T -> bool)
    requires |xs| > 0
    ensures keep(xs[0]) ==> Filter(xs, keep) == [xs[0]] + Filter(xs[1..], keep)
    ensures !keep(xs[0]) ==> Filter(xs, keep) == Filter(xs[1..], keep)
  {
  }

  lemma {:induction false} FilterFromIsGather<T>(xs: seq<T>, keep: T -> bool, lo: nat)
    requires lo <= |xs|
    ensures Filter(xs[lo..], keep) == Gather(xs, PositionsFrom(xs, keep, lo))
    decreases |xs| - lo
  {
    if lo < |xs| {
      FilterFromIsGather(xs, keep, lo + 1);
      var suffix := xs[lo..];
      assert suffix[0] == xs[lo] && suffix[1..] == xs[lo + 1..];
      FilterCons(suffix, keep);
      var rest := PositionsFrom(xs, keep, lo + 1);
      if keep(xs[lo]) {
        assert PositionsFrom(xs, keep, lo) == [lo] + rest;
        GatherConcat(xs, [lo], rest);
        assert Gather(xs, [lo]) == [xs[lo]];
      } else {
        assert PositionsFrom(xs, keep, lo) == rest;
      }
    }
  }

  /** `Filter` keeps exactly the elements at `Positions`: the k-th kept element
      is the element of `xs` at the k-th index whose element satisfies `keep`. */
  lemma FilterIsGather<T>(xs: seq<T>, keep: T -> bool)
    ensures Filter(xs, keep) == Gather(xs, Positions(xs, keep))
  {
    assert xs[0..] == xs;
    FilterFromIsGather(xs, keep, 0);
  }

  /** `xs.map(f)` where `f` may throw: the first element whose callback throws
      decides the error; otherwise every element is mapped. */
  function MapAll<T, U, E(==)>(xs: seq<T>, f: T -> Result<U, E>): (r: Result<seq<U>, E>)
    ensures r.Ok? <==> forall i :: 0 <= i < |xs| ==> f(xs[i]).Ok?
    ensures r.Ok? ==> |r.value| == |xs| && forall i :: 0 <= i < |xs| ==> r.value[i] == f(xs[i]).value
    ensures r.Err? ==> exists i :: 0 <= i < |xs| && f(xs[i]) == Err(r.error)
                                   && forall j :: 0 <= j < i ==> f(xs[j]).Ok?
  {
    if |xs| == 0 then Ok([])
    else
      var head :- f(xs[0]);
      var tail :- MapAll(xs[1..], f);
      Ok([head] + tail)
  }

  /** `map` throws at once when the callback throws on the first element. */
  lemma MapAllHeadFails<T, U, E>(xs: seq<T>, f: T -> Result<U, E>)
    requires |xs| > 0 && f(xs[0]).Err?
    ensures MapAll(xs, f) == Err(f(xs[0]).error)
  {
  }

  /** When the first element maps, a failure of `map` is the failure of the
      rest. */
  lemma MapAllHeadOk<T, U, E>(xs: seq<T>, f: T -> Result<U, E>)
    requires |xs| > 0 && f(xs[0]).Ok? && MapAll(xs, f).Err?
    ensures MapAll(xs[1..], f) == MapAll(xs, f)
  {
  }

  /** When the first element is dropped or maps, a failure of `map` over
      the kept elements is the failure over those of the rest. */
  lemma MapAllFilterSkipHead<T, U, E>(xs: seq<T>, keep: T -> bool, f: T -> Result<U, E>)
    requires |xs| > 0 && MapAll(Filter(xs, keep), f).Err?
    requires keep(xs[0]) ==> f(xs[0]).Ok?
    ensures MapAll(Filter(xs[1..], keep), f) == MapAll(Filter(xs, keep), f)
  {
    var kept := Filter(xs, keep);
    FilterCons(xs, keep);
    if keep(xs[0]) {
      assert kept[0] == xs[0] && kept[1..] == Filter(xs[1..], keep);
      MapAllHeadOk(kept, f);
    }
  }

  /** When the first element is kept and fails, `map` over the kept elements
      fails with its error. */
  lemma MapAllFilterHeadFails<T, U, E>(xs: seq<T>, keep: T -> bool, f: T -> Result<U, E>)
    requires |xs| > 0 && keep(xs[0]) && f(xs[0]).Err?
    ensures MapAll(Filter(xs, keep), f) == Err(f(xs[0]).error)
  {
    var kept := Filter(xs, keep);
    FilterCons(xs, keep);
    assert kept[0] == xs[0];
    MapAllHeadFails(kept, f);
  }

  /** `xs[k]` is kept, `f` fails on it with `e`, and `f` succeeds on every
      kept element before it. */
  ghost predicate FirstFailureAt<T, U, E>(xs: seq<T>, keep: T -> bool, f: T -> Result<U, E>, e: E, k: int) {
    && 0 <= k < |xs| && keep(xs[k]) && f(xs[k]) == Err(e)
    && forall j :: 0 <= j < k && keep(xs[j]) ==> f(xs[j]).Ok?
  }

  /** A first failure in the rest is a first failure in the whole when the
      first element is dropped or maps. */
  lemma FirstFailureShift<T, U, E>(xs: seq<T>, keep: T -> bool, f: T -> Result<U, E>, e: E, k: int)
    requires |xs| > 0 && (keep(xs[0]) ==> f(xs[0]).Ok?)
    requires FirstFailureAt(xs[1..], keep, f, e, k)
    ensures FirstFailureAt(xs, keep, f, e, k + 1)
  {
    var rest := xs[1..];
    assert xs[k + 1] == rest[k];
    forall j | 0 <= j < k + 1 && keep(xs[j])
      ensures f(xs[j]).Ok?
    {
      if j > 0 {
        assert xs[j] == rest[j - 1];
      }
    }
  }

  /** Mapping the elements `keep` selects fails with the error of the first
      selected element, in the order of `xs`, on which `f` fails. */
  lemma {:induction false} MapAllFilterFirstFailure<T, U, E>(xs: seq<T>, keep: T -> bool, f: T -> Result<U, E>)
    requires MapAll(Filter(xs, keep), f).Err?
    ensures exists k :: FirstFailureAt(xs, keep, f, MapAll(Filter(xs, keep), f).error, k)
  {
    var e := MapAll(Filter(xs, keep), f).error;
    if |xs| > 0 {
      if keep(xs[0]) && f(xs[0]).Err? {
        MapAllFilterHeadFails(xs, keep, f);
        assert FirstFailureAt(xs, keep, f, e, 0);
      } else {
        MapAllFilterSkipHead(xs, keep, f);
        MapAllFilterFirstFailure(xs[1..], keep, f);
        var k :| FirstFailureAt(xs[1..], keep, f, e, k);
        FirstFailureShift(xs, keep, f, e, k);
      }
    }
  }

  /** `lines.join(sep)`: the lines with `sep` between neighbours; no lines give "". */
  function Join(lines: seq<string>, sep: string): (r: string)
    ensures |lines| == 0 ==> r == ""
    ensures |lines| > 0 ==> lines[0] <= r
  {
    if |lines| == 0 then ""
    else if |lines| == 1 then lines[0]
    else lines[0] + sep + Join(lines[1..], sep)
  }

  /** Total length of the lines. */
  function TotalLength(lines: seq<string>): nat {
    if |lines| == 0 then 0 else |lines[0]| + TotalLength(lines[1..])
  }

  /** The joined text holds every character of the lines plus one separator
      between each pair of neighbours, and nothing else. */
  lemma {:induction false} JoinLength(lines: seq<string>, sep: string)
    ensures |lines| == 0 ==> Join(lines, sep) == ""
    ensures |lines| > 0 ==> |Join(lines, sep)| == TotalLength(lines) + (|lines| - 1) * |sep|
  {
    if |lines| > 1 {
      JoinLength(lines[1..], sep);
    }
  }

  /** Joining two non-empty groups of lines equals joining each group and
      putting one separator between the results. */
  lemma {:induction false} JoinConcat(a: seq<string>, b: seq<string>, sep: string)
    requires |a| > 0 && |b| > 0
    ensures Join(a + b, sep) == Join(a, sep) + sep + Join(b, sep)
  {
    if |a| == 1 {
      assert (a + b)[1..] == b;
    } else {
      assert (a + b)[1..] == a[1..] + b;
      JoinConcat(a[1..], b, sep);
    }
  }

  /** The first line starts the text and the last line ends it. */
  lemma {:induction false} JoinEnds(lines: seq<string>, sep: string)
    requires |lines| > 0
    ensures lines[0] <= Join(lines, sep)
    ensures var r := Join(lines, sep);
            var last := lines[|lines| - 1];
            |last| <= |r| && r[|r| - |last|..] == last
  {
    if |lines| > 1 {
      JoinEnds(lines[1..], sep);
    }
  }
}

=== FILE: server.dfy ===
/** The query service's request handler: it routes a request by its
    `action` to `getNewest`, `getPkgAssoc` or `verifyCircom`, and maps
    anything those throw to a 400 reply. The store, the address and chain
    validators and the circuit verifier are collaborators whose code is not
    part of this model; they are passed in as a `Backend`. */
module Server {
  import opened Wrappers
  import opened Hex

  /** A JavaScript number as the comparisons and `isNaN` see it, after
      `ToNumber` of the payload field (an absent field is NaN). */
  datatype Num = NaN | PosInf | NegInf | Finite(value: real)

  /** `n < bound` in JavaScript; every comparison with NaN is false. */
  predicate Below(n: Num, bound: real) {
    match n
    case NaN => false
    case PosInf => false
    case NegInf => true
    case Finite(v) => v < bound
  }

  /** `n > bound` in JavaScript. */
  predicate Above(n: Num, bound: real) {
    match n
    case NaN => false
    case PosInf => true
    case NegInf => false
    case Finite(v) => v > bound
  }

  /** A scalar payload field: absent (or null), an integer or a text. */
  datatype Scalar = Absent | Int(i: int) | Text(s: string)

  /** JavaScript truthiness of a scalar: 0, "" and absent are false. */
  predicate Truthy(v: Scalar) {
    match v
    case Absent => false
    case Int(i) => i != 0
    case Text(s) => s != ""
  }

  /** The request payload's fields that the handler reads. */
  datatype Payload = Payload(
    action: Option<string>,
    offset: Num,
    limit: Num,
    address: Option<string>,
    chainId: Scalar)

  /** A decoded request; `payload` is None when it is absent or null. */
  datatype Request = Request(payload: Option<Payload>)

  /** The columns of a verified-circuit row besides its address. */
  datatype Columns = Columns(chainId: int, createdAt: string, tpl: string, params: string, protocol: string)

  /** A verified-circuit row; the store holds the address as bytes, the
      reply carries it as text. */
  datatype Row<A> = Row(address: A, columns: Columns)

  /** `OFFSET` of the newest-rows query: a row count, or `Infinity` when the
      offset is positive infinity. */
  datatype Offset = Skip(rows: nat) | SkipAll

  /** `LIMIT` and `OFFSET` of the newest-rows query. */
  datatype Window = Window(limit: nat, offset: Offset)

  /** A row of the package-association table, passed through unchanged. */
  datatype AssocRow = AssocRow(fields: seq<(string, string)>)

  /** Whatever the circuit verifier replies. */
  datatype VerifyReply = VerifyReply(statusCode: int, body: string)

  /** The collaborators: address and chain validators, the two queries and
      the circuit verifier. A query or the verifier fails with the message
      of what it throws. */
  datatype Backend = Backend(
    isAddress: string -> bool,
    findChain: Scalar -> bool,
    newest: Window -> Result<seq<Row<seq<byte>>>, string>,
    assoc: (Scalar, seq<byte>) -> Result<seq<AssocRow>, string>,
    verifyCircom: Request -> Result<VerifyReply, string>)

  datatype ErrorBody = ErrorBody(errorType: string, errorMessage: string)

  /** What the handler returns: one reply per route, or the 400 error reply. */
  datatype Reply =
    | NewestRows(rows: seq<Row<string>>)
    | AssocRows(statusCode: int, assocRows: seq<AssocRow>)
    | Verified(reply: VerifyReply)
    | ErrorReply(statusCode: int, error: ErrorBody)

  const InvalidCommand: string := "invalid_command"
  const InvalidOffset: string := "invalid_offset"
  const InvalidLimit: string := "invalid_limit"
  const MissingPayload: string := "missing_payload"
  const InvalidAddress: string := "invalid_address"
  const MissingChainId: string := "missing_chainId"
  const InvalidChainId: string := "invalid_chainId"
  /** The message of the TypeError thrown by reading `action` of an absent payload. */
  const PayloadTypeError: string := "Cannot read properties of undefined (reading 'action')"

  /** Largest page the newest-rows query serves. */
  const MaxLimit: nat := 1000
  /** Status of every error reply. */
  const BadRequest: int := 400

  datatype Action = Newest | PkgAssoc | VerifyCircom

  /** The `action` value that selects each route. */
  function ActionName(a: Action): string {
    match a
    case Newest => "newest"
    case PkgAssoc => "pkg-assoc"
    case VerifyCircom => "verifyCircom"
  }

  /** The `switch` on `payload.action`: the route whose name it is, if any. */
  function ParseAction(s: Option<string>): (r: Option<Action>)
    ensures forall a :: r == Some(a) <==> s == Some(ActionName(a))
  {
    if s == Some("newest") then Some(Newest)
    else if s == Some("pkg-assoc") then Some(PkgAssoc)
    else if s == Some("verifyCircom") then Some(VerifyCircom)
    else None
  }

  /** Offsets `getNewest` lets through: non-negative, or positive infinity. */
  predicate OffsetAccepted(o: Num) {
    o.PosInf? || (o.Finite? && o.value >= 0.0)
  }

  /** Limits `getNewest` lets through: the closed range [0, 1000]. */
  predicate LimitAccepted(l: Num) {
    l.Finite? && 0.0 <= l.value <= MaxLimit as real
  }

  /** `Math.floor` of an accepted offset. */
  function FloorOffset(o: Num): (r: Offset)
    requires OffsetAccepted(o)
    ensures o.PosInf? <==> r.SkipAll?
    ensures r.Skip? ==> r.rows as real <= o.value < r.rows as real + 1.0
  {
    if o.PosInf? then SkipAll else Skip(o.value.Floor)
  }

  /** The checks of `getNewest`, offset first, and the window of the query
      it then runs. */
  function NewestWindow(p: Payload): (r: Result<Window, string>)
    ensures r == Err(InvalidOffset) <==> !OffsetAccepted(p.offset)
    ensures r == Err(InvalidLimit) <==> OffsetAccepted(p.offset) && !LimitAccepted(p.limit)
    ensures r.Ok? <==> OffsetAccepted(p.offset) && LimitAccepted(p.limit)
    ensures r.Ok? ==> r.value.limit <= MaxLimit
                      && r.value.limit as real <= p.limit.value < r.value.limit as real + 1.0
    ensures r.Ok? ==> r.value.offset == FloorOffset(p.offset)
  {
    if p.offset.NaN? || Below(p.offset, 0.0) then Err(InvalidOffset)
    else if p.limit.NaN? || Below(p.limit, 0.0) || Above(p.limit, MaxLimit as real) then Err(InvalidLimit)
    else Ok(Window(p.limit.value.Floor, FloorOffset(p.offset)))
  }

  /** The rows as returned: each address as `0x` text, every other column unchanged. */
  function FormatRows(rows: seq<Row<seq<byte>>>): (r: seq<Row<string>>)
    ensures |r| == |rows|
    ensures forall k :: 0 <= k < |rows| ==> r[k].columns == rows[k].columns
    ensures forall k :: 0 <= k < |rows| ==>
              && |r[k].address| == 2 + 2 * |rows[k].address|
              && r[k].address[..2] == Prefix
              && (forall i :: 2 <= i < |r[k].address| ==> r[k].address[i] in LowerDigits)
              && DecodeAddress(r[k].address) == rows[k].address
  {
    var r := seq(|rows|, k requires 0 <= k < |rows| => Row(FormatAddress(rows[k].address), rows[k].columns));
    assert forall k :: 0 <= k < |rows| ==> DecodeAddress(r[k].address) == rows[k].address by {
      forall k | 0 <= k < |rows|
        ensures DecodeAddress(r[k].address) == rows[k].address
      {
        AddressRoundTrip(rows[k].address);
      }
    }
    r
  }

  /** `getNewest`: validate, query the window, format the rows. */
  function GetNewest(p: Payload, newest: Window -> Result<seq<Row<seq<byte>>>, string>): (r: Result<seq<Row<string>>, string>)
    ensures NewestWindow(p).Err? ==> r == Err(NewestWindow(p).error)
    ensures NewestWindow(p).Ok? && newest(NewestWindow(p).value).Err? ==> r == Err(newest(NewestWindow(p).value).error)
    ensures r.Ok? ==> NewestWindow(p).Ok? && newest(NewestWindow(p).value).Ok?
                      && r.value == FormatRows(newest(NewestWindow(p).value).value)
  {
    var window :- NewestWindow(p);
    var rows :- newest(window);
    Ok(FormatRows(rows))
  }

  /** One precondition and the error it throws when it does not hold. */
  datatype Check = Check(holds: bool, failure: string)

  /** The first failing check's error; None when every check holds. */
  function FirstFailure(checks: seq<Check>): (r: Option<string>)
    ensures r.None? <==> forall i :: 0 <= i < |checks| ==> checks[i].holds
    ensures r.Some? ==> exists i :: 0 <= i < |checks| && !checks[i].holds && checks[i].failure == r.value
                                    && forall j :: 0 <= j < i ==> checks[j].holds
  {
    if |checks| == 0 then None
    else if !checks[0].holds then Some(checks[0].failure)
    else
      var rest := FirstFailure(checks[1..]);
      if rest.Some? then
        ghost var i :| 0 <= i < |checks[1..]| && !checks[1..][i].holds && checks[1..][i].failure == rest.value
                       && forall j :: 0 <= j < i ==> checks[1..][j].holds;
        assert !checks[i + 1].holds && checks[i + 1].failure == rest.value;
        rest
      else rest
  }

  /** Whether the validator accepts the payload's address; an absent address is not one. */
  predicate AddressAccepted(p: Payload, be: Backend) {
    p.address.Some? && be.isAddress(p.address.value)
  }

  /** The preconditions of `getPkgAssoc`, in the order it tests them. */
  function PkgAssocChecks(payload: Option<Payload>, be: Backend): (r: seq<Check>)
    ensures |r| == 4
    ensures r[0].failure == MissingPayload && r[1].failure == InvalidAddress
    ensures r[2].failure == MissingChainId && r[3].failure == InvalidChainId
    ensures r[0].holds <==> payload.Some?
    ensures r[1].holds <==> payload.Some? && AddressAccepted(payload.value, be)
    ensures r[2].holds <==> payload.Some? && Truthy(payload.value.chainId)
    ensures r[3].holds <==> payload.Some? && be.findChain(payload.value.chainId)
    ensures (forall i :: 0 <= i < |r| ==> r[i].holds) <==>
              && payload.Some?
              && AddressAccepted(payload.value, be)
              && Truthy(payload.value.chainId)
              && be.findChain(payload.value.chainId)
  {
    [ Check(payload.Some?, MissingPayload),
      Check(payload.Some? && AddressAccepted(payload.value, be), InvalidAddress),
      Check(payload.Some? && Truthy(payload.value.chainId), MissingChainId),
      Check(payload.Some? && be.findChain(payload.value.chainId), InvalidChainId) ]
  }

  /** `getPkgAssoc`: the preconditions in order, then the association query
      keyed by the chain id and the address bytes. */
  function GetPkgAssoc(payload: Option<Payload>, be: Backend): (r: Result<Reply, string>)
    ensures FirstFailure(PkgAssocChecks(payload, be)).Some? ==>
              r == Err(FirstFailure(PkgAssocChecks(payload, be)).value)
    ensures FirstFailure(PkgAssocChecks(payload, be)).None? ==>
              && payload.Some? && payload.value.address.Some?
              && var rows := be.assoc(payload.value.chainId, DecodeAddress(payload.value.address.value));
                 r == if rows.Ok? then Ok(AssocRows(200, rows.value)) else Err(rows.error)
  {
    var checks := PkgAssocChecks(payload, be);
    assert checks[0].holds <==> payload.Some?;
    if payload.None? then Err(MissingPayload)
    else
      var p := payload.value;
      if !AddressAccepted(p, be) then
        assert checks[1] == Check(false, InvalidAddress);
        Err(InvalidAddress)
      else if !Truthy(p.chainId) then
        assert checks[1].holds && checks[2] == Check(false, MissingChainId);
        Err(MissingChainId)
      else if !be.findChain(p.chainId) then
        assert checks[1].holds && checks[2].holds && checks[3] == Check(false, InvalidChainId);
        Err(InvalidChainId)
      else
        assert forall i :: 0 <= i < |checks| ==> checks[i].holds;
        var rows :- be.assoc(p.chainId, DecodeAddress(p.address.value));
        Ok(AssocRows(200, rows))
  }

  /** The `switch` inside `handler`'s `try`. */
  function Dispatch(req: Request, be: Backend): (r: Result<Reply, string>)
    ensures r.Ok? ==> !r.value.ErrorReply?
    ensures req.payload.None? ==> r == Err(PayloadTypeError)
    ensures req.payload.Some? && ParseAction(req.payload.value.action).None? ==> r == Err(InvalidCommand)
    ensures req.payload.Some? && ParseAction(req.payload.value.action) == Some(Newest) ==>
              var g := GetNewest(req.payload.value, be.newest);
              r == if g.Ok? then Ok(NewestRows(g.value)) else Err(g.error)
    ensures req.payload.Some? && ParseAction(req.payload.value.action) == Some(PkgAssoc) ==>
              r == GetPkgAssoc(req.payload, be)
    ensures req.payload.Some? && ParseAction(req.payload.value.action) == Some(VerifyCircom) ==>
              var v := be.verifyCircom(req);
              r == if v.Ok? then Ok(Verified(v.value)) else Err(v.error)
  {
    match req.payload
    case None => Err(PayloadTypeError)
    case Some(p) =>
      match ParseAction(p.action)
      case None => Err(InvalidCommand)
      case Some(Newest) =>
        var rows :- GetNewest(p, be.newest);
        Ok(NewestRows(rows))
      case Some(PkgAssoc) => GetPkgAssoc(req.payload, be)
      case Some(VerifyCircom) =>
        var reply :- be.verifyCircom(req);
        Ok(Verified(reply))
  }

  /** `handler`: a route's reply as is, and every thrown error as a 400
      reply carrying only the error's message. */
  function Handle(req: Request, be: Backend): (r: Reply)
    ensures r.ErrorReply? <==> Dispatch(req, be).Err?
    ensures r.ErrorReply? ==> r == ErrorReply(BadRequest, ErrorBody("error", Dispatch(req, be).error))
    ensures !r.ErrorReply? ==> Dispatch(req, be) == Ok(r)
  {
    match Dispatch(req, be)
    case Ok(reply) => reply
    case Err(message) => ErrorReply(BadRequest, ErrorBody("error", message))
  }
}

=== FILE: server_lemmas.dfy ===
/** Properties of the query service's handler across its routes. */
module ServerLemmas {
  import opened Wrappers
  import opened Hex
  import opened Server

  /** The request that carries `p` with its action set to `a`. */
  function RequestFor(p: Payload, a: Action): (req: Request)
    ensures req.payload.Some? && ParseAction(req.payload.value.action) == Some(a)
  {
    Request(Some(p.(action := Some(ActionName(a)))))
  }

  /** An action that names no route is answered with `invalid_command`, and
      nothing else. */
  lemma UnknownActionRejected(p: Payload, be: Backend)
    requires forall a :: p.action != Some(ActionName(a))
    ensures Handle(Request(Some(p)), be) == ErrorReply(400, ErrorBody("error", "invalid_command"))
  {
    assert ParseAction(p.action).None?;
  }

  /** A rejected offset is reported whatever the limit, since it is checked first. */
  lemma OffsetCheckedFirst(p: Payload, be: Backend)
    requires !OffsetAccepted(p.offset)
    ensures Handle(RequestFor(p, Newest), be) == ErrorReply(400, ErrorBody("error", "invalid_offset"))
  {
    var q := RequestFor(p, Newest).payload.value;
    assert NewestWindow(q) == Err(InvalidOffset);
  }

  /** With an accepted offset, a limit that is NaN or outside [0, 1000] is
      reported as `invalid_limit`. */
  lemma LimitOutOfRangeRejected(p: Payload, be: Backend)
    requires OffsetAccepted(p.offset) && !LimitAccepted(p.limit)
    ensures Handle(RequestFor(p, Newest), be) == ErrorReply(400, ErrorBody("error", "invalid_limit"))
  {
    var q := RequestFor(p, Newest).payload.value;
    assert NewestWindow(q) == Err(InvalidLimit);
  }

  /** A request `getNewest` rejects never reaches the store: the reply is
      the same whatever the store would have answered. */
  lemma NoQueryOnRejectedWindow(p: Payload, db1: Window -> Result<seq<Row<seq<byte>>>, string>,
                                db2: Window -> Result<seq<Row<seq<byte>>>, string>)
    requires NewestWindow(p).Err?
    ensures GetNewest(p, db1) == GetNewest(p, db2)
  {
  }

  /** A newest-rows request with valid bounds queries a window of at most
      1000 rows and answers with every row the store returned, in order,
      each address in `0x` text that decodes back to the stored bytes. */
  lemma NewestRowsServed(p: Payload, be: Backend)
    requires OffsetAccepted(p.offset) && LimitAccepted(p.limit)
    requires be.newest(NewestWindow(p).value).Ok?
    ensures var stored := be.newest(NewestWindow(p).value).value;
            var reply := Handle(RequestFor(p, Newest), be);
            && NewestWindow(p).value.limit <= 1000
            && reply.NewestRows?
            && |reply.rows| == |stored|
            && forall k :: 0 <= k < |stored| ==>
                 && reply.rows[k].columns == stored[k].columns
                 && reply.rows[k].address[..2] == Prefix
                 && (forall i :: 2 <= i < |reply.rows[k].address| ==> reply.rows[k].address[i] in LowerDigits)
                 && DecodeAddress(reply.rows[k].address) == stored[k].address
                 && reply.rows[k].address == FormatAddress(stored[k].address)
  {
    var q := RequestFor(p, Newest).payload.value;
    assert NewestWindow(q) == NewestWindow(p);
  }

  /** Each route name is answered by its own handler: `newest` by
      `getNewest`, `pkg-assoc` by `getPkgAssoc` and `verifyCircom` by the
      verifier, whose error, if any, becomes the 400 reply. */
  lemma ActionsRouteToHandlers(req: Request, be: Backend)
    requires req.payload.Some?
    ensures ParseAction(req.payload.value.action) == Some(Newest) ==>
              var g := GetNewest(req.payload.value, be.newest);
              Handle(req, be) == if g.Ok? then NewestRows(g.value) else ErrorReply(400, ErrorBody("error", g.error))
    ensures ParseAction(req.payload.value.action) == Some(PkgAssoc) ==>
              var g := GetPkgAssoc(req.payload, be);
              Handle(req, be) == if g.Ok? then g.value else ErrorReply(400, ErrorBody("error", g.error))
    ensures ParseAction(req.payload.value.action) == Some(VerifyCircom) ==>
              var v := be.verifyCircom(req);
              Handle(req, be) == if v.Ok? then Verified(v.value) else ErrorReply(400, ErrorBody("error", v.error))
  {
    if ParseAction(req.payload.value.action) == Some(PkgAssoc) {
      var g := GetPkgAssoc(req.payload, be);
      assert g.Ok? ==> !g.value.ErrorReply?;
    }
  }

  /** `getPkgAssoc` tests its preconditions in a fixed order; the first that
      fails decides the error. */
  lemma PkgAssocErrorOrder(payload: Option<Payload>, be: Backend)
    ensures payload.None? ==> GetPkgAssoc(payload, be) == Err("missing_payload")
    ensures payload.Some? && !AddressAccepted(payload.value, be) ==>
              GetPkgAssoc(payload, be) == Err("invalid_address")
    ensures payload.Some? && AddressAccepted(payload.value, be) && !Truthy(payload.value.chainId) ==>
              GetPkgAssoc(payload, be) == Err("missing_chainId")
    ensures payload.Some? && AddressAccepted(payload.value, be) && Truthy(payload.value.chainId)
            && !be.findChain(payload.value.chainId) ==>
              GetPkgAssoc(payload, be) == Err("invalid_chainId")
  {
    var checks := PkgAssocChecks(payload, be);
    var first := FirstFailure(checks);
    if first.Some? {
      var i :| 0 <= i < |checks| && !checks[i].holds && checks[i].failure == first.value
               && forall j :: 0 <= j < i ==> checks[j].holds;
      assert 0 < i ==> checks[0].holds;
      assert 1 < i ==> checks[1].holds;
      assert 2 < i ==> checks[2].holds;
    }
  }

  /** A `getPkgAssoc` request that fails a precondition never reaches the
      store: the reply depends only on the validators. */
  lemma NoQueryOnFailedCheck(payload: Option<Payload>, be1: Backend, be2: Backend)
    requires forall s :: be1.isAddress(s) == be2.isAddress(s)
    requires forall c :: be1.findChain(c) == be2.findChain(c)
    requires FirstFailure(PkgAssocChecks(payload, be1)).Some?
    ensures GetPkgAssoc(payload, be1) == GetPkgAssoc(payload, be2)
  {
    assert PkgAssocChecks(payload, be1) == PkgAssocChecks(payload, be2);
  }

  /** The handler reads `payload.action` before any route runs, so the
      `missing_payload` check of `getPkgAssoc` never fails when it is
      reached through the handler: an absent payload is answered with the
      TypeError's message instead. */
  lemma MissingPayloadUnreachable(req: Request, be: Backend)
    ensures req.payload.None? ==>
              Handle(req, be) == ErrorReply(400, ErrorBody("error", PayloadTypeError))
              && PayloadTypeError != MissingPayload
    ensures req.payload.Some? && ParseAction(req.payload.value.action) == Some(PkgAssoc) ==>
              FirstFailure(PkgAssocChecks(req.payload, be)) != Some(MissingPayload)
  {
    if req.payload.Some? {
      var checks := PkgAssocChecks(req.payload, be);
      var first := FirstFailure(checks);
      if first.Some? {
        var i :| 0 <= i < |checks| && !checks[i].holds && checks[i].failure == first.value
                 && forall j :: 0 <= j < i ==> checks[j].holds;
        assert i > 0;
      }
    }
  }

  /** An address the service returned, sent back to `getPkgAssoc`, queries
      the association table with the very bytes the row was stored under. */
  lemma ReturnedAddressKeysAssoc(p: Payload, stored: seq<byte>, be: Backend)
    requires p.address == Some(FormatAddress(stored))
    requires be.isAddress(FormatAddress(stored)) && Truthy(p.chainId) && be.findChain(p.chainId)
    ensures var rows := be.assoc(p.chainId, stored);
            GetPkgAssoc(Some(p), be) == if rows.Ok? then Ok(AssocRows(200, rows.value)) else Err(rows.error)
  {
    AddressRoundTrip(stored);
    assert FirstFailure(PkgAssocChecks(Some(p), be)).None?;
  }
}

=== FILE: wrappers.dfy ===
/** Failure-compatible Option and Result types, used wherever the modelled
    JavaScript code reads a property that may be absent or throws an error. */
module Wrappers {

  /** A value that may be absent: JavaScript's `undefined`/`null` for an optional field. */
  datatype Option<+T> = None | Some(value: T) {

    /** The carried value, or `default` when absent. */
    function GetOr(default: T): T {
      match this
      case Some(v) => v
      case None => default
    }
  }

  /** The outcome of a computation that may throw: `Ok` carries the value,
      `Err` carries what was thrown. Usable with `:-`. */
  datatype Result<+T, +E> = Ok(value: T) | Err(error: E) {

    predicate IsFailure() {
      Err?
    }

    function PropagateFailure<U>(): Result<U, E>
      requires Err?
    {
      Err(error)
    }

    function Extract(): T
      requires Ok?
    {
      value
    }
  }
}
